=== FILE: README.md ===
# Swarm API layer (swarm/api/api.go) in Dafny

This project models the API layer of the Swarm content store. That layer sits between the HTTP and FUSE front ends and the content store (DPA).

- **MultiResolver.** It resolves a name through ENS backends chosen by the name's top-level domain. Each TLD token maps to an ordered chain of backends, and the empty token is the default chain. A request selects exactly one chain: the TLD's own chain if it has one, otherwise the default chain. It then asks that chain's backends in order and stops at the first one that succeeds.
- **Api façade.** It covers five operations:
  - `Resolve`: an immutable URI must already be a hash; a mutable one goes to DNS, and the URI's own hash is the fallback.
  - `Put`: stores the content, then a manifest with a single entry that names it.
  - `Get`: loads the manifest and finds the entry. A resource-pointer entry is dereferenced once through a multihash. The result is one of these outcomes: a reader, an ambiguous entry (300), an error, or an unsupported digest (422).
  - `Modify`: upserts or deletes an entry, then stores the new root.
  - Resource lookup and update dispatch.
- **AppendFile buffer.** AppendFile builds a byte array of length `max(offset + addSize, existingSize)`. It fills the array in place: first from a reader over the old content, then from a reader over the new content.

Modules, one concern each:

| file | module | what it holds |
|---|---|---|
| `common.dfy` | `Common` | bytes, keys, hashes, `Option`/`Result`, the API's errors |
| `hex_codec.dfy` | `HexCodec` | the hex text of a key and `common.Hex2Bytes`, with their round trip |
| `manifest_text.dfy` | `ManifestText` | the JSON text `Put` stores and a reader for exactly that shape |
| `multi_resolver.dfy` | `MultiResolvers` | the `MultiResolver` class, its options and the chain selection |
| `facade.dfy` | `Facade` | the decisions of `Api.Resolve`, `Put`, `Get`, `Modify` and the resource calls |
| `append_buffer.dfy` | `AppendBuffer` | a `bytes.Reader`-like class, `io.ReadAtLeast`, and the AppendFile buffer over an `array` |

Collaborators are modelled as datatypes with function-typed fields. The model sees a collaborator only through the value or error it returns. The collaborators are:

- resolver backends;
- the content store;
- the manifest trie loader, entry lookup and store;
- the resource handler;
- the multihash decoder.

Each method that answers a query is proved against a specification function; for example, `MultiResolver.Resolve` ensures `r == ResolveSpec(resolvers, addr)`. The properties are then proved as lemmas about those functions.

The code is followed where it differs from its description in three places:

- `Api.Get` returns the matched entry's own `Status`, not a fixed 200.
- The 422 outcome for a non-Keccak multihash carries a nil error. The `err` returned there is the one declared by `decodedMultihash, err :=`, which is nil at that point.
- In AppendFile the tail copy after the new bytes never runs, because its guard `buffSize < existingSize` is false after line 545. With `offset == 0` no old byte is copied at all (see Findings).

## Model

| member | source | states |
|---|---|---|
| `HexCodec.HexDigit` | swarm/api/api.go:297 | the digit written for a value below 16 reads back as that value |
| `HexCodec.Hex` | swarm/api/api.go:297 | the `%v` text of a key has two characters per byte, all hex digits |
| `HexCodec.DigitValue` | swarm/api/api.go:405 | a hex digit's value is below 16 |
| `HexCodec.Hex2Bytes` | swarm/api/api.go:405 | decoding yields at most one byte per two characters |
| `HexCodec.Hex2BytesHex` | swarm/api/api.go:297-299 | decoding the hex text of any key gives that key back: the content key Put writes is the one Get reads |
| `HexCodec.HexInjective` | swarm/api/api.go:297 | distinct keys have distinct hex text |
| `ManifestText.Singleton` | swarm/api/api.go:297 | the manifest text's length is the sum of its fixed parts, the key's hex and the content type |
| `ManifestText.QuoteIndex` | swarm/api/api.go:297 | the index found is the first double quote (or the end), with no quote before it |
| `ManifestText.ParseSingleton` | swarm/api/api.go:297 | a text it accepts is exactly head + hash + middle + content type + tail, with quote-free fields |
| `ManifestText.SingletonRoundTrip` | swarm/api/api.go:297 | the manifest Put writes reads back as the key's hex and the content type, for a quote-free content type |
| `ManifestText.SingletonInjective` | swarm/api/api.go:297 | distinct keys give distinct manifest texts for the same content type |
| `ManifestText.UnescapedQuoteBreaksRoundTrip` | swarm/api/api.go:297 | `ParseSingleton` never returns a content type holding a double quote, so such a content type does not read back out of Put's text |
| `ManifestText.SingletonContentTypeVerbatim` | swarm/api/api.go:297 | the content type is written into Put's text verbatim, right after the head, the hex key and the middle |
| `ManifestText.SingletonRawQuote` | swarm/api/api.go:297 | a content type holding a double quote puts a raw, unescaped quote inside the content-type field of Put's text |
| `MultiResolvers.NoResolverMessage` | swarm/api/api.go:93-98 | the message is "no ENS resolver" exactly when the TLD is empty; otherwise the message is exactly the fixed head "no ENS endpoint configured to resolve .", the TLD, and the fixed tail " TLD names" |
| `MultiResolvers.Ext` | swarm/api/api.go:192 | `path.Ext`: a non-empty result is a suffix of the name that starts with its last dot and holds no other dot and no slash; an empty result means every dot is followed by a slash |
| `MultiResolvers.SelectChain` | swarm/api/api.go:190-204 | the TLD's own chain when registered; otherwise the default chain; `NoResolverError(tld)` exactly when neither exists; never an empty chain while registration's invariant holds |
| `MultiResolvers.FirstOk` | swarm/api/api.go:149-154 | the answer picked is one of the answers; it succeeds iff some backend succeeds; a failure is the last backend's |
| `MultiResolvers.FirstOkIsFirst` | swarm/api/api.go:149-154 | the answer picked is the first success: every earlier backend failed |
| `MultiResolvers.TldChainIgnoresDefault` | swarm/api/api.go:191-199 | once the name's TLD has a chain, changing or removing the default chain changes nothing |
| `MultiResolvers.NoResolverOnlyWithoutDefault` | swarm/api/api.go:190-204 | for a dotless name, selection fails iff there is no default chain, and the error reads "no ENS resolver" |
| `MultiResolvers.TldFailureDoesNotFallThrough` | swarm/api/api.go:144-156 | a TLD chain that fails throughout answers with its last failure; there is no per-backend fallback to the default chain |
| `MultiResolvers.ResolveTakesFirstSuccess` | swarm/api/api.go:144-156 | resolution answers with the first succeeding backend of the chosen chain |
| `MultiResolvers.MultiResolver.constructor` | swarm/api/api.go:130-133 | a new resolver has no chains and `ens.EnsNode` as name hash |
| `MultiResolvers.MultiResolver.AddResolver` | swarm/api/api.go:116-120 | appends the backend to its TLD's chain only, keeping every chain non-empty |
| `MultiResolvers.MultiResolver.SetNameHash` | swarm/api/api.go:206-208 | replaces the name hash and nothing else |
| `MultiResolvers.MultiResolver.Resolve` | swarm/api/api.go:144-156 | the loop's answer is the first success of the selected chain, the last failure, or the selection error |
| `MultiResolvers.MultiResolver.ValidateOwner` | swarm/api/api.go:158-172 | the first owner a backend reports for the name's node, compared with the address; otherwise the last error or the selection error |
| `MultiResolvers.MultiResolver.HeaderByNumber` | swarm/api/api.go:174-188 | the first header a backend returns; otherwise the last error or the selection error |
| `MultiResolvers.NewMultiResolver` | swarm/api/api.go:112-138 | applying the options in order gives each TLD the backends registered for it, in order, and the last name hash given |
| `Facade.Resolve` | swarm/api/api.go:251-286 | an immutable URI never reaches DNS and fails iff it has no hash; a DNS answer wins; the URI's hash is the fallback; each error case carries its own error |
| `Facade.ImmutableNeverResolves` | swarm/api/api.go:256-262 | for an immutable URI, any resolver (or none) gives the same answer |
| `Facade.Put` | swarm/api/api.go:289-308 | a content-store failure is returned as is; otherwise the manifest naming the content key is stored; the result is the manifest's key and both wait signals in order |
| `Facade.PutManifestNamesContent` | swarm/api/api.go:289-308 | the stored manifest text reads back as the content key's hex and the content type, and that hex decodes to the content key |
| `Facade.Serve` | swarm/api/api.go:405-414 | the content key is the entry hash decoded; a reader exists iff the status is not 300, over that key; the status is the entry's own |
| `Facade.GetResource` | swarm/api/api.go:341-403 | a reader comes with no error; no reader and no error means 300 or 422 |
| `Facade.Get` | swarm/api/api.go:313-422 | a reader comes with no error and over the reported content key, never with 300; no reader and no error means 300 or 422; an error comes with no content key |
| `Facade.GetMissing` | swarm/api/api.go:313-420 | a manifest that does not load gives 404 with the loader's own error; one with no entry for the path gives 404 with `EntryNotFound(path)`; no reader either way |
| `Facade.GetServes` | swarm/api/api.go:324-414 | an entry that is not a resource pointer is served as it stands: Get's answer is `Serve` of that entry |
| `Facade.GetAmbiguous` | swarm/api/api.go:405-409 | an ambiguous entry gives no reader but its content key and MIME type |
| `Facade.GetRawResource` | swarm/api/api.go:400-401 | a raw resource update gives 200 with `ErrResourceReturn` and never consults the multihash decoder |
| `Facade.GetBadDigest` | swarm/api/api.go:362-373 | an undecodable payload gives 500 with the decoder's error; a non-Keccak-256 code gives 422 with no reader and no error |
| `Facade.GetResourceMissing` | swarm/api/api.go:345-358 | a resource pointer whose latest update or content cannot be fetched gives 404 with that error and no reader |
| `Facade.GetResourceTargetMissing` | swarm/api/api.go:379-397 | when the manifest named by the digest does not load, or lacks the path, Get gives 404 with the loader's error or `ResourceEntryNotFound(path)` and no reader |
| `Facade.GetThroughResource` | swarm/api/api.go:375-414 | through a resource pointer, Get answers what Get on the manifest named by the digest answers |
| `Facade.GetIndirectionIsSingle` | swarm/api/api.go:389-414 | an entry reached through a pointer is served even when it is itself a pointer: there is a single level of indirection |
| `Facade.PutThenGet` | swarm/api/api.go:289-414 | Get on the empty path of Put's manifest gives a reader over the stored content's key with the content type Put was given, for a content type that JSON holds without escaping (no quote, backslash or control character) |
| `Facade.EditTrie` | swarm/api/api.go:432-441 | a non-empty hash upserts the entry at the path; an empty hash deletes it; no other path changes |
| `Facade.Modify` | swarm/api/api.go:424-448 | a load failure is returned as is; otherwise the result is what storing the edited trie returns |
| `Facade.UpsertThenDelete` | swarm/api/api.go:424-448 | an upsert followed by a delete of the same path stores the original trie without that path |
| `Facade.DeleteIdempotent` | swarm/api/api.go:439-441 | deleting the same path twice is deleting it once |
| `Facade.ResourceLookup` | swarm/api/api.go:651-667 | a version without a period is invalid ("Period can't be 0"); otherwise the lookup selected by version and period (version, historical, latest) is made; its error is returned, and when it succeeds the result is exactly `GetContent(name)` read from the update that lookup found |
| `Facade.ResourceLookupConsultsOne` | swarm/api/api.go:651-667 | only the lookup selected by period and version is consulted |
| `Facade.PeriodSelectsContent` | swarm/api/api.go:651-667 | the period decides the content: a historical and a latest lookup of one name can answer differently |
| `Facade.ResourceUpdateWith` | swarm/api/api.go:685-696 | the write asked for is made; the key is present iff there is no error; the last period and version the handler holds after that write are reported, whatever its outcome |
| `Facade.ResourceUpdate` | swarm/api/api.go:681-683 | a raw write: the result does not depend on the multihash write, and reports the raw write's key, period and version |
| `Facade.ResourceUpdateMultihash` | swarm/api/api.go:678-680 | a multihash write: the result does not depend on the raw write, and reports the multihash write's key, period and version |
| `Facade.TrimRootDir` | swarm/api/api.go:465-467 | a leading slash is removed; any other path is unchanged |
| `AppendBuffer.ByteReader.constructor` | swarm/api/api.go:554 | a reader starts at offset 0 over its bytes |
| `AppendBuffer.ByteReader.Read` | swarm/api/api.go:554-555 | copies as many bytes as fit from the current offset and advances by that many; reports EOF iff nothing was left; leaves the rest of the buffer alone |
| `AppendBuffer.ReadAtLeast` | swarm/api/api.go:552-555 | `io.ReadAtLeast` copies nothing when min is 0 or more than fits; otherwise it copies as much as fits and the reader holds, in place from `from` |
| `AppendBuffer.BufferSize` | swarm/api/api.go:544-547 | the buffer length is at least `offset + addSize` and at least `existingSize`, and equals one of them |
| `AppendBuffer.AppendedAsWritten` | swarm/api/api.go:544-562 | the buffer the code builds has length `BufferSize` |
| `AppendBuffer.AsWrittenHoldsContent` | swarm/api/api.go:554-555 | with addSize > 0, the new content sits at `offset`, as far as it fits |
| `AppendBuffer.AsWrittenAtZero` | swarm/api/api.go:551-555 | with offset 0 the buffer holds only the new content and zeros |
| `AppendBuffer.AsWrittenOldKeepsOld` | swarm/api/api.go:551-552 | with offset > 0 the first read copies the old bytes as far as the buffer reaches |
| `AppendBuffer.AsWrittenKeepsOld` | swarm/api/api.go:551-555 | with offset > 0 the old bytes (zero-padded) are everywhere the new content is not |
| `AppendBuffer.AppendFileBuffer` | swarm/api/api.go:544-562 | fills a fresh array of length `BufferSize` with exactly `AppendedAsWritten`, and reports that length as the total size |
| `AppendBuffer.AppendedIntended` | swarm/api/api.go:544-562 | the intended buffer: new bytes at `offset`, old bytes elsewhere, zero-padded; when the new bytes fit inside the old content it is old prefix + new + old tail |
| `AppendBuffer.AppendFileBufferIntended` | swarm/api/api.go:551-555 | the corrected fill (first read asks for the whole old content) yields exactly `AppendedIntended` |
| `AppendBuffer.AsWrittenIsIntendedForPositiveOffset` | swarm/api/api.go:551-555 | with offset > 0 the buffer as written is the intended one |
| `AppendBuffer.AppendAtZeroLosesTail` | swarm/api/api.go:551-555 | with offset 0, writing `[3]` into `[1, 2]` gives `[3, 0]` where `[3, 2]` is meant |

## Left out

- `Facade.ResourceLookup`: the resource handler's state is reduced to the update a lookup finds, which `GetContent` reads. The rest of the handler's cache, and what a lookup leaves behind for later calls, is not modelled.
- `Facade.ResourceUpdateWith`: a write is modelled by its outcome together with the last period and version the handler reports after it. How the handler derives them from its state and the clock is not modelled.
- Metrics counters, logging and `context.Context` are not modelled. The resource handler's `maxLookup` parameters are not modelled either.
- The collaborators' own behaviour is not modelled. This covers the content store (`dpa.Store`, `Retrieve`) and the manifest trie (`loadManifest`, `getEntry` prefix matching, `addEntry`, `deleteEntry`, `recalcAndStore`). It also covers the resource handler, `multihash.Decode` and the ENS backends. Each is a function of its inputs returning a value or an error.
- `Api.Upload`, `Retrieve`, `Store` and `NewApi` are not modelled: they only delegate. `BuildDirectoryTree`, `ResourceCreate`, `ResourceHashSize` and `ResourceIsValidated` are left out for the same reason.
- `Api.AddFile` and `Api.RemoveFile` are not modelled. Their URI parsing and manifest-writer calls belong to collaborators. Only their shared leading-slash trim is modelled, as `Facade.TrimRootDir`.
- Of `Api.AppendFile`, only the buffer it builds is modelled (lines 544-562). The rest is:
  - the manifest writer, which removes the old entry, adds the new one and stores;
  - `BuildDirectoryTree`.
- `Facade.TrimRootDir`: requires a non-empty path, because `path[:1]` panics on an empty one.
- The `wait` functions Put returns are modelled as the list of completion signals they run, in order.
- Go's nil values are modelled as `Option`/`Result`. A backend or the content store returning a value together with an error is not modelled; only the error is kept. `MultiResolver.Resolve` therefore does not return the hash that accompanies its last error.
- `MultiResolvers.MultiResolver.Resolve`, `ValidateOwner` and `HeaderByNumber` assume that no registered chain is empty. This is the invariant `Valid`, which `AddResolver` and `NewMultiResolver` establish and keep.
- The key's `String` form is taken to be lower-case hex of every byte. `storage.Key` is not part of this model.
- `HexCodec.Hex2Bytes` keeps the bytes decoded before the first malformed pair. Older Go releases of `hex.DecodeString` return no bytes on malformed input. Only well-formed hex is used in the proved properties.
- `ManifestText.SingletonRoundTrip`: holds only for content types without a double quote, because Put formats the manifest with `%s` and no JSON escaping. `ParseSingleton` reads only the shape of the text and does not decode JSON escapes. A quote-free content type with a backslash or a control character therefore reads back here, but not through a JSON decoder: `a\` escapes the closing quote, and the two characters `\n` decode to a newline.
- `Facade.PutThenGet`: assumes the manifest loader reads Put's single-entry text as that entry under the empty path (`LoadsAsSingleton`). The JSON decoder and the trie are not part of this model. The assumption is made only for content types that a JSON string holds without escaping (`ManifestText.JsonPlain`).
- `AppendBuffer.ByteReader`: the old content comes from `Retrieve` as a lazy section reader. It is modelled with `bytes.Reader` semantics: a read copies as much as fits and reports EOF only when nothing is left. A reader that returns fewer bytes than it has is not modelled.
- `AppendBuffer.ReadAtLeast`: the errors `io.ReadAtLeast` returns (`ErrShortBuffer`, `ErrUnexpectedEOF`, `EOF`) are not modelled. AppendFile discards them.
- `AppendBuffer.AppendFileBuffer`: offsets and sizes are non-negative. The `int64` to `int` conversions and a negative `offset`, which panics in Go, are not modelled.

## Findings

| source | as written | input that shows it | evidently intended | confidence | as-written member | corrected member |
|---|---|---|---|---|---|---|
| swarm/api/api.go:551-559 | the first `io.ReadAtLeast` asks for `offset` bytes, so with `offset == 0` it copies no old byte; the tail copy at line 558 is guarded by `buffSize < existingSize`, which is false after line 545; the old bytes after the new content become zeros | old content `[1, 2]`, existingSize 2, content `[3]`, offset 0, addSize 1: buffer `[3, 0]` | old bytes kept around the new ones: `[3, 2]` | not executed | `AppendBuffer.AppendAtZeroLosesTail` | `AppendBuffer.AppendFileBufferIntended` |

=== FILE: append_buffer.dfy ===
/** The buffer Api.AppendFile builds before storing the edited file: a byte
    array of length max(offset + addSize, existingSize), filled in place by
    io.ReadAtLeast from a reader over the old content and then from a reader
    over the new content. */
module AppendBuffer {
  import opened Common

  /** s with src written over it from index `at`. */
  function Overwrite(s: Bytes, at: nat, src: Bytes): (r: Bytes)
    requires at + |src| <= |s|
    ensures |r| == |s|
  {
    s[..at] + src + s[at + |src|..]
  }

  /** Each byte of the result: from src inside the written range, from s
      outside it. */
  lemma OverwriteAt(s: Bytes, at: nat, src: Bytes)
    requires at + |src| <= |s|
    ensures forall i :: 0 <= i < |s| ==>
              Overwrite(s, at, src)[i] == if at <= i < at + |src| then src[i - at] else s[i]
  {
  }

  lemma OverwriteNothing(s: Bytes, at: nat)
    requires at <= |s|
    ensures Overwrite(s, at, []) == s
  {
  }

  /** A reader over a byte sequence with the Read of bytes.Reader: it copies
      as many bytes as fit, and reports io.EOF only when nothing is left. */
  class ByteReader {
    const data: Bytes
    var off: nat

    ghost predicate Valid()
      reads this
    {
      off <= |data|
    }

    constructor (data: Bytes)
      ensures Valid() && this.data == data && off == 0
    {
      this.data := data;
      off := 0;
    }

    /** Read into buf[from:]. */
    method Read(buf: array<byte>, from: nat) returns (n: nat, eof: bool)
      requires Valid() && from <= buf.Length
      modifies this, buf
      ensures Valid()
      ensures eof <==> old(off) == |data|
      ensures n == Min(buf.Length - from, |data| - old(off)) && off == old(off) + n
      ensures forall i :: 0 <= i < buf.Length ==>
                buf[i] == if from <= i < from + n then data[old(off) + i - from] else old(buf[i])
    {
      if off == |data| {
        return 0, true;
      }
      var start := off;
      n := Min(buf.Length - from, |data| - start);
      var k := 0;
      while k < n
        invariant 0 <= k <= n && off == start
        invariant forall i :: 0 <= i < buf.Length ==>
                    buf[i] == if from <= i < from + k then data[start + i - from] else old(buf[i])
      {
        buf[from + k] := data[start + k];
        k := k + 1;
      }
      off := off + n;
      eof := false;
    }
  }

  /** The number of bytes io.ReadAtLeast(r, buf[from:], min) copies from a
      reader with `left` bytes left: none when min is 0 or more than fits
      (io.ErrShortBuffer), otherwise as much as fits, since a reader that
      stops short has run dry. */
  function ReadAtLeastCount(room: nat, left: nat, min: nat): nat
  {
    if min == 0 || room < min then 0 else Min(room, left)
  }

  /** io.ReadAtLeast over buf[from:]; the error it returns is discarded by
      AppendFile and not modelled. */
  method ReadAtLeast(r: ByteReader, buf: array<byte>, from: nat, min: nat) returns (n: nat)
    requires r.Valid() && from <= buf.Length
    modifies r, buf
    ensures r.Valid()
    ensures n == ReadAtLeastCount(buf.Length - from, |r.data| - old(r.off), min)
    ensures r.off == old(r.off) + n
    ensures buf[..] == Overwrite(old(buf[..]), from, r.data[old(r.off)..old(r.off) + n])
  {
    ghost var b0 := buf[..];
    ghost var start := r.off;
    n := 0;
    if min == 0 || buf.Length - from < min {
      OverwriteNothing(b0, from);
      return;
    }
    var eof := false;
    while n < min && !eof
      invariant from + n <= buf.Length
      invariant r.Valid() && r.off == start + n
      invariant forall i :: 0 <= i < buf.Length ==>
                  buf[i] == if from <= i < from + n then r.data[start + i - from] else b0[i]
      invariant eof ==> r.off == |r.data|
      invariant 0 < n < buf.Length - from ==> r.off == |r.data|
      decreases min - n, if eof then 0 else 1
    {
      var nn;
      nn, eof := r.Read(buf, from + n);
      n := n + nn;
    }
    // the loop stops with n >= min > 0 or at EOF; short of the room only at EOF
    assert n < buf.Length - from ==> n == |r.data| - start;
    OverwriteAt(b0, from, r.data[start..start + n]);
    assert buf[..] == Overwrite(b0, from, r.data[start..start + n]);
  }

  /** The length AppendFile gives the buffer. */
  function BufferSize(existingSize: int, offset: nat, addSize: nat): (n: nat)
    ensures n >= offset + addSize && n >= existingSize
    ensures n == offset + addSize || n == existingSize
  {
    Max(offset + addSize, existingSize)
  }

  /** The buffer after io.ReadAtLeast(src-reader, buf[at:], min) on a fresh
      reader over src. */
  function ReadInto(s: Bytes, at: nat, src: Bytes, min: nat): Bytes
    requires at <= |s|
  {
    Overwrite(s, at, src[..ReadAtLeastCount(|s| - at, |src|, min)])
  }

  /** The buffer AppendFile stores, as written: zeros, then the old content
      read from index 0 with at least `offset` bytes asked for, then the new
      content read from index `offset` with at least `addSize` bytes asked
      for. The old reader is not read again: the tail copy is guarded by
      `buffSize < existingSize`, which cannot hold. With offset 0 no old byte
      is read at all. */
  function AppendedAsWritten(previous: Bytes, content: Bytes, existingSize: int, offset: nat, addSize: nat): (r: Bytes)
    ensures |r| == BufferSize(existingSize, offset, addSize)
  {
    ReadInto(AsWrittenOld(previous, existingSize, offset, addSize), offset, content, addSize)
  }

  /** The buffer as written before the new content lands: zeros, with the
      old bytes the first read copied from index 0. */
  function AsWrittenOld(previous: Bytes, existingSize: int, offset: nat, addSize: nat): (r: Bytes)
    ensures |r| == BufferSize(existingSize, offset, addSize)
  {
    ReadInto(seq(BufferSize(existingSize, offset, addSize), _ => 0), 0, previous, offset)
  }

  /** The new content sits at `offset` in the buffer as written, as far as
      it fits, whenever addSize is positive. */
  lemma AsWrittenHoldsContent(previous: Bytes, content: Bytes, existingSize: int, offset: nat, addSize: nat)
    requires addSize > 0
    ensures var r := AppendedAsWritten(previous, content, existingSize, offset, addSize);
            forall i :: 0 <= i < Min(|content|, |r| - offset) ==> r[offset + i] == content[i]
  {
    var afterOld := AsWrittenOld(previous, existingSize, offset, addSize);
    OverwriteAt(afterOld, offset, content[..ReadAtLeastCount(|afterOld| - offset, |content|, addSize)]);
  }

  /** With offset 0 the first read copies nothing: the buffer as written is
      the new content and zeros. */
  lemma AsWrittenAtZero(previous: Bytes, content: Bytes, existingSize: int, addSize: nat)
    ensures var r := AppendedAsWritten(previous, content, existingSize, 0, addSize);
            forall i :: 0 <= i < |r| ==> r[i] == if addSize > 0 && i < |content| then content[i] else 0
  {
    var zeros := seq(BufferSize(existingSize, 0, addSize), _ => 0);
    OverwriteNothing(zeros, 0);
    assert previous[..0] == [];
    var afterOld := AsWrittenOld(previous, existingSize, 0, addSize);
    OverwriteAt(afterOld, 0, content[..ReadAtLeastCount(|afterOld|, |content|, addSize)]);
  }

  /** With a positive offset the first read copies the old bytes as far as
      the buffer and the old content both reach. */
  lemma AsWrittenOldKeepsOld(previous: Bytes, existingSize: int, offset: nat, addSize: nat)
    requires offset > 0
    ensures var r := AsWrittenOld(previous, existingSize, offset, addSize);
            forall i :: 0 <= i < |r| ==> r[i] == if i < |previous| then previous[i] else 0
  {
    var zeros := seq(BufferSize(existingSize, offset, addSize), _ => 0);
    var nOld := ReadAtLeastCount(|zeros|, |previous|, offset);
    assert nOld == Min(|zeros|, |previous|);
    OverwriteAt(zeros, 0, previous[..nOld]);
  }

  /** With a positive offset the old bytes are everywhere the new content is
      not, zero-padded past their end. */
  lemma AsWrittenKeepsOld(previous: Bytes, content: Bytes, existingSize: int, offset: nat, addSize: nat)
    requires offset > 0
    ensures var r := AppendedAsWritten(previous, content, existingSize, offset, addSize);
            forall i :: 0 <= i < |r| && !(addSize > 0 && offset <= i < offset + |content|) ==>
              r[i] == if i < |previous| then previous[i] else 0
  {
    var afterOld := AsWrittenOld(previous, existingSize, offset, addSize);
    var nNew := ReadAtLeastCount(|afterOld| - offset, |content|, addSize);
    AsWrittenOldKeepsOld(previous, existingSize, offset, addSize);
    OverwriteAt(afterOld, offset, content[..nNew]);
  }

  /** The buffer-building part of Api.AppendFile: allocates and fills the buffer in place
      and reports its length, which becomes the new entry's Size. */
  method AppendFileBuffer(previous: Bytes, content: Bytes, existingSize: int, offset: int, addSize: int)
    returns (buf: array<byte>, totalSize: int)
    requires 0 <= offset && 0 <= addSize
    ensures fresh(buf)
    ensures totalSize == buf.Length == BufferSize(existingSize, offset, addSize)
    ensures buf[..] == AppendedAsWritten(previous, content, existingSize, offset, addSize)
  {
    var buffSize := offset + addSize;
    if buffSize < existingSize {
      buffSize := existingSize;
    }
    buf := new byte[buffSize](_ => 0);
    ghost var zeros := buf[..];
    var oldReader := new ByteReader(previous);
    var readOld := ReadAtLeast(oldReader, buf, 0, offset);
    ghost var afterOld := buf[..];
    var newReader := new ByteReader(content);
    var readNew := ReadAtLeast(newReader, buf, offset, addSize);
    AsWrittenSteps(previous, content, existingSize, offset, addSize, zeros, readOld, afterOld, readNew, buf[..]);
    if buffSize < existingSize {
      // buffSize was raised to at least existingSize above
      assert false;
    }
    totalSize := buf.Length;
  }

  /** The two reads AppendFile makes, from fresh readers, build the buffer as
      written. */
  lemma AsWrittenSteps(previous: Bytes, content: Bytes, existingSize: int, offset: nat, addSize: nat,
                       zeros: Bytes, nOld: nat, afterOld: Bytes, nNew: nat, final: Bytes)
    requires |zeros| == BufferSize(existingSize, offset, addSize)
    requires forall i :: 0 <= i < |zeros| ==> zeros[i] == 0
    requires nOld == ReadAtLeastCount(|zeros|, |previous|, offset)
    requires afterOld == Overwrite(zeros, 0, previous[0..nOld])
    requires offset <= |afterOld| && nNew == ReadAtLeastCount(|afterOld| - offset, |content|, addSize)
    requires final == Overwrite(afterOld, offset, content[0..nNew])
    ensures final == AppendedAsWritten(previous, content, existingSize, offset, addSize)
  {
    assert zeros == seq(BufferSize(existingSize, offset, addSize), _ => 0);
    assert previous[0..nOld] == previous[..nOld];
    assert content[0..nNew] == content[..nNew];
  }

  /** What the append evidently means, for old content whose declared size
      is its length: old bytes before `offset`, the addSize new bytes at
      `offset`, and the old tail after them. */
  function AppendedIntended(previous: Bytes, content: Bytes, offset: nat, addSize: nat): (r: Bytes)
    requires addSize <= |content|
    ensures |r| == BufferSize(|previous|, offset, addSize)
    ensures forall i :: 0 <= i < |r| ==>
              r[i] == if offset <= i < offset + addSize then content[i - offset]
                      else if i < |previous| then previous[i] else 0
    ensures offset + addSize <= |previous| ==>
              r == previous[..offset] + content[..addSize] + previous[offset + addSize..]
  {
    var n := BufferSize(|previous|, offset, addSize);
    var padded := previous + seq(n - |previous|, _ => 0);
    Overwrite(padded, offset, content[..addSize])
  }

  /** AppendFile as evidently meant: the first read asks for the whole old
      content (existingSize bytes) rather than for `offset` bytes, so the old
      tail survives at offset 0 too. */
  method AppendFileBufferIntended(previous: Bytes, content: Bytes, offset: nat)
    returns (buf: array<byte>, totalSize: int)
    ensures fresh(buf)
    ensures totalSize == buf.Length == BufferSize(|previous|, offset, |content|)
    ensures buf[..] == AppendedIntended(previous, content, offset, |content|)
  {
    var existingSize := |previous|;
    var addSize := |content|;
    var buffSize := offset + addSize;
    if buffSize < existingSize {
      buffSize := existingSize;
    }
    buf := new byte[buffSize](_ => 0);
    ghost var zeros := buf[..];
    var oldReader := new ByteReader(previous);
    var readOld := ReadAtLeast(oldReader, buf, 0, existingSize);
    ghost var afterOld := buf[..];
    var newReader := new ByteReader(content);
    var readNew := ReadAtLeast(newReader, buf, offset, addSize);
    IntendedSteps(previous, content, offset, zeros, readOld, afterOld, readNew, buf[..]);
    totalSize := buf.Length;
  }

  /** The two reads of the corrected append build the intended buffer: the
      first copies all of the old content, the second all of the new. */
  lemma IntendedSteps(previous: Bytes, content: Bytes, offset: nat,
                      zeros: Bytes, nOld: nat, afterOld: Bytes, nNew: nat, final: Bytes)
    requires |zeros| == BufferSize(|previous|, offset, |content|)
    requires forall i :: 0 <= i < |zeros| ==> zeros[i] == 0
    requires nOld == ReadAtLeastCount(|zeros|, |previous|, |previous|)
    requires afterOld == Overwrite(zeros, 0, previous[0..nOld])
    requires offset <= |afterOld| && nNew == ReadAtLeastCount(|afterOld| - offset, |content|, |content|)
    requires final == Overwrite(afterOld, offset, content[0..nNew])
    ensures final == AppendedIntended(previous, content, offset, |content|)
  {
    assert nOld == |previous| && nNew == |content|;
    assert previous[0..nOld] == previous;
    assert content[0..nNew] == content[..|content|];
    var padded := previous + seq(|zeros| - |previous|, _ => 0);
    OverwriteAt(zeros, 0, previous);
    assert afterOld == padded;
  }

  /** With a positive offset the old reader fills the buffer before the new
      bytes land, so the buffer as written is the intended one. */
  lemma AsWrittenIsIntendedForPositiveOffset(previous: Bytes, content: Bytes, offset: nat)
    requires offset > 0
    ensures AppendedAsWritten(previous, content, |previous|, offset, |content|)
         == AppendedIntended(previous, content, offset, |content|)
  {
    AsWrittenKeepsOld(previous, content, |previous|, offset, |content|);
    if |content| > 0 {
      AsWrittenHoldsContent(previous, content, |previous|, offset, |content|);
    }
    var a := AppendedAsWritten(previous, content, |previous|, offset, |content|);
    var b := AppendedIntended(previous, content, offset, |content|);
    forall i | 0 <= i < |a| ensures a[i] == b[i] {
    }
  }

  /** With offset 0 the old tail is replaced by zero bytes: appending [3]
      over the first byte of [1, 2] gives [3, 0] where [3, 2] is meant. */
  lemma AppendAtZeroLosesTail()
    ensures AppendedAsWritten([1, 2], [3], 2, 0, 1) == [3, 0]
    ensures AppendedIntended([1, 2], [3], 0, 1) == [3, 2]
  {
    var a := AppendedAsWritten([1, 2], [3], 2, 0, 1);
    assert a[0] == 3 && a[1] == 0;
    var b := AppendedIntended([1, 2], [3], 0, 1);
    assert b[0] == 3 && b[1] == 2;
  }
}

=== FILE: common.dfy ===
/** Shared vocabulary of the swarm API model: bytes, keys, hashes, the
    Option/Result wrappers and the errors the API layer produces or passes on. */
module Common {

  /** One byte of a Go []byte or string. */
  type byte = x: int | 0 <= x < 256

  type Bytes = seq<byte>

  /** storage.Key: a content address (32 bytes, or 64 for encrypted content);
      a nil Key is modelled with Option/Result. */
  type Key = Bytes

  /** common.Hash, a 32-byte digest. */
  type Hash = h: Bytes | |h| == 32 witness seq(32, _ => 0)

  /** common.Address, a 20-byte account address. */
  type Address = a: Bytes | |a| == 20 witness seq(20, _ => 0)

  /** Go's uint32. */
  type uint32 = x: int | 0 <= x < 0x1_0000_0000

  datatype Option<+T> = None | Some(value: T)

  datatype Result<+T> = Ok(value: T) | Err(error: Error)

  /** The errors of the API layer. Collaborators (resolver backends, the
      content store, the manifest trie, the resource handler, the multihash
      decoder) fail with errors of their own, which the model keeps opaque as
      `Collaborator` values and which the API passes on unchanged. */
  datatype Error =
    | Collaborator(code: nat)
      // NoResolverError{TLD}
    | NoResolver(tld: string)
      // "immutable address not a content hash: %q"
    | ImmutableNotHash(addr: string)
      // "no DNS to resolve name: %q"
    | NoDns(addr: string)
      // "manifest entry for '%s' not found"
    | EntryNotFound(path: string)
      // "manifest (resource multihash) entry for '%s' not found"
    | ResourceEntryNotFound(path: string)
      // ErrResourceReturn{key}: raw resource data is to be served directly
    | ResourceReturn(key: string)
      // storage.NewResourceError(storage.ErrInvalidValue, msg)
    | InvalidValue(msg: string)

  function Min(a: int, b: int): int { if a <= b then a else b }

  function Max(a: int, b: int): int { if a >= b then a else b }
}

=== FILE: facade.dfy ===
/** The decisions of the Api façade: resolving a URI, Put's singleton
    manifest, Get's outcome, Modify's upsert or delete, and the resource
    lookup and update dispatch. The content store, the manifest trie, the
    resource handler and the multihash decoder are collaborators whose calls
    are modelled as functions that return a value or an error. */
module Facade {
  import opened Common
  import HexCodec
  import ManifestText

  const StatusOK: int := 200
  const StatusMultipleChoices: int := 300
  const StatusNotFound: int := 404
  const StatusUnprocessableEntity: int := 422
  const StatusInternalServerError: int := 500

  /** The content type that marks a resource-pointer manifest entry
      (ResourceContentType, declared in manifest.go). */
  const ResourceContentType: string := "application/bzz-resource"

  /** multihash.KECCAK_256: the multihash code of the store's content hash. */
  const Keccak256: nat := 0x1b

  /** A manifest entry (ManifestEntry): Hash is the hex text of a content
      key, or a resource name for a resource pointer. */
  datatype Entry = Entry(path: string, hash: string, contentType: string,
                         status: int, mode: int, size: int, modTime: int)

  /** A loaded manifest trie, seen as a map from path to entry. */
  datatype Trie = Trie(entries: map<string, Entry>)

  /** What the content store's Store returns: the key and the completion
      signal (wait) of an asynchronous write. */
  datatype Receipt = Receipt(key: Key, wait: nat)

  /** The resource update a lookup found, which the handler then holds as
      the resource's current state: its multihash flag and the period and
      version it was found at. */
  datatype Update = Update(multihash: bool, period: uint32, version: uint32)

  /** What a write through the resource handler gives: its own outcome and
      the last period and version the handler reports for the resource
      afterwards. */
  datatype Written = Written(outcome: Result<Key>, period: uint32, version: uint32)

  /** A decoded multihash: algorithm code and digest. */
  datatype Multihash = Multihash(code: nat, digest: Bytes)

  /** A parsed URI together with what uri.Immutable() and uri.Key() report
      for it (those live in uri.go, which is not part of this model). */
  datatype Uri = Uri(addr: string, path: string, immutable: bool, key: Option<Key>)

  /** The lazy reader the content store hands out for a key. */
  datatype Reader = Reader(key: Key)

  /** storage.DPA: Store(data, size, toEncrypt) with size = len(data). */
  datatype Dpa = Dpa(store: (string, bool) -> Result<Receipt>)

  /** loadManifest, trie.getEntry and trie.recalcAndStore (manifest.go). */
  datatype Manifests = Manifests(
    load: Key -> Result<Trie>,
    getEntry: (Trie, string) -> Option<Entry>,
    recalcAndStore: Trie -> Result<Key>)

  /** storage.ResourceHandler, by the calls the Api makes of it. The
      handler is stateful: a lookup makes the update it finds the resource's
      current one, which GetContent then reads, so `getContent` takes that
      update; a write changes the period and version GetLastPeriod and
      GetVersion report, so a write returns them with its outcome. */
  datatype ResourceHandler = ResourceHandler(
    lookupLatest: string -> Result<Update>,
    lookupHistorical: (string, uint32) -> Result<Update>,
    lookupVersion: (string, uint32, uint32) -> Result<Update>,
    getContent: (string, Update) -> Result<(Key, Bytes)>,
    update: (string, Bytes) -> Written,
    updateMultihash: (string, Bytes) -> Written)

  /** The Api struct and the collaborators it reaches; `dns` is None when no
      name resolver is configured. */
  datatype Api = Api(
    dpa: Dpa,
    dns: Option<string -> Result<Hash>>,
    resource: ResourceHandler,
    manifests: Manifests,
    decodeMultihash: Bytes -> Result<Multihash>)

  // ---------------------------------------------------------------- Resolve

  /** Whether Api.Resolve takes its answer from the name resolver. */
  predicate ResolvedByDns(api: Api, uri: Uri)
  {
    !uri.immutable && api.dns.Some? && api.dns.value(uri.addr).Ok?
  }

  /** Api.Resolve: an immutable URI must carry a content hash and is never
      sent to the resolver; otherwise the resolver's answer wins, and the
      URI's own hash is the fallback. */
  function Resolve(api: Api, uri: Uri): (r: Result<Key>)
    ensures r.Ok? && ResolvedByDns(api, uri) ==> r.value == api.dns.value(uri.addr).value
    ensures r.Ok? && !ResolvedByDns(api, uri) ==> uri.key == Some(r.value)
    ensures r.Err? <==> uri.key.None? && (uri.immutable || api.dns.None? || api.dns.value(uri.addr).Err?)
    ensures r.Err? && uri.immutable ==> r.error == ImmutableNotHash(uri.addr)
    ensures r.Err? && !uri.immutable && api.dns.None? ==> r.error == NoDns(uri.addr)
    ensures r.Err? && !uri.immutable && api.dns.Some? ==> r.error == api.dns.value(uri.addr).error
  {
    if uri.immutable then
      match uri.key
      case None => Err(ImmutableNotHash(uri.addr))
      case Some(k) => Ok(k)
    else if api.dns.None? then
      match uri.key
      case None => Err(NoDns(uri.addr))
      case Some(k) => Ok(k)
    else
      match api.dns.value(uri.addr)
      case Ok(h) => Ok(h)
      case Err(e) =>
        match uri.key
        case None => Err(e)
        case Some(k) => Ok(k)
  }

  /** An immutable URI never reaches the resolver: any resolver, or none,
      gives the same answer. */
  lemma ImmutableNeverResolves(api: Api, uri: Uri, dns: Option<string -> Result<Hash>>)
    requires uri.immutable
    ensures Resolve(api.(dns := dns), uri) == Resolve(api, uri)
  {
  }

  // ---------------------------------------------------------------- Put

  /** The result of a successful Put: the manifest's key and the completion
      signals the returned wait function runs, in order. */
  datatype Stored = Stored(key: Key, waits: seq<nat>)

  /** Api.Put: stores the content, then the singleton manifest naming it. */
  function Put(dpa: Dpa, content: string, contentType: string, toEncrypt: bool): (r: Result<Stored>)
    ensures dpa.store(content, toEncrypt).Err? ==> r == Err(dpa.store(content, toEncrypt).error)
    ensures r.Ok? ==>
              var c := dpa.store(content, toEncrypt).value;
              var m := dpa.store(ManifestText.Singleton(c.key, contentType), toEncrypt);
              m.Ok? && r.value.key == m.value.key && r.value.waits == [c.wait, m.value.wait]
    ensures r.Err? && dpa.store(content, toEncrypt).Ok? ==>
              var c := dpa.store(content, toEncrypt).value;
              var m := dpa.store(ManifestText.Singleton(c.key, contentType), toEncrypt);
              m.Err? && r == Err(m.error)
  {
    match dpa.store(content, toEncrypt)
    case Err(e) => Err(e)
    case Ok(c) =>
      match dpa.store(ManifestText.Singleton(c.key, contentType), toEncrypt)
      case Err(e) => Err(e)
      case Ok(m) => Ok(Stored(m.key, [c.wait, m.wait]))
  }

  /** The manifest Put stores names the content key (through its hex text)
      and the content type, when the content type holds no double quote. */
  lemma PutManifestNamesContent(dpa: Dpa, content: string, contentType: string, toEncrypt: bool)
    requires ManifestText.QuoteFree(contentType)
    requires Put(dpa, content, contentType, toEncrypt).Ok?
    ensures var contentKey := dpa.store(content, toEncrypt).value.key;
            var text := ManifestText.Singleton(contentKey, contentType);
            && dpa.store(text, toEncrypt).Ok?
            && dpa.store(text, toEncrypt).value.key == Put(dpa, content, contentType, toEncrypt).value.key
            && ManifestText.ParseSingleton(text) == Some((HexCodec.Hex(contentKey), contentType))
            && HexCodec.Hex2Bytes(HexCodec.Hex(contentKey)) == contentKey
  {
    var contentKey := dpa.store(content, toEncrypt).value.key;
    ManifestText.SingletonRoundTrip(contentKey, contentType);
    HexCodec.Hex2BytesHex(contentKey);
  }

  // ---------------------------------------------------------------- Get

  /** The five results of Api.Get: reader, MIME type, status, content key
      and error. */
  datatype GetResult = GetResult(reader: Option<Reader>, mimeType: string, status: int,
                                 contentKey: Option<Key>, err: Option<Error>)

  function NotFound(e: Error): GetResult
  {
    GetResult(None, "", StatusNotFound, None, Some(e))
  }

  /** The tail of Api.Get once an entry is settled: it is ambiguous (300: no reader) or is served
      through a reader over its content key; the status is the entry's own. */
  function Serve(entry: Entry): (r: GetResult)
    ensures r.contentKey == Some(HexCodec.Hex2Bytes(entry.hash)) && r.mimeType == entry.contentType
    ensures r.status == entry.status && r.err.None?
    ensures r.reader.Some? <==> entry.status != StatusMultipleChoices
    ensures r.reader.Some? ==> r.reader.value.key == HexCodec.Hex2Bytes(entry.hash)
  {
    var contentKey := HexCodec.Hex2Bytes(entry.hash);
    if entry.status == StatusMultipleChoices then
      GetResult(None, entry.contentType, entry.status, Some(contentKey), None)
    else
      GetResult(Some(Reader(contentKey)), entry.contentType, entry.status, Some(contentKey), None)
  }

  /** The resource branch of Api.Get: dereferencing a resource-pointer entry. A raw update
      short-circuits with ErrResourceReturn; a multihash update whose digest
      is a Keccak-256 hash names the manifest in which the path is looked up
      again, once. The 422 result carries no error: the `err` returned there
      is the one declared by `decodedMultihash, err :=`, which is nil. */
  function GetResource(api: Api, entry: Entry, path: string): (r: GetResult)
    ensures r.reader.Some? ==> r.err.None?
    ensures r.reader.None? && r.err.None? ==>
              r.status == StatusMultipleChoices || r.status == StatusUnprocessableEntity
  {
    match api.resource.lookupLatest(entry.hash)
    case Err(e) => NotFound(e)
    case Ok(rsrc) =>
      match api.resource.getContent(entry.hash, rsrc)
      case Err(e) => NotFound(e)
      case Ok(content) =>
        if !rsrc.multihash then
          GetResult(None, entry.contentType, StatusOK, None, Some(ResourceReturn(entry.hash)))
        else
          match api.decodeMultihash(content.1)
          case Err(e) => GetResult(None, "", StatusInternalServerError, None, Some(e))
          case Ok(mh) =>
            if mh.code != Keccak256 then
              GetResult(None, "", StatusUnprocessableEntity, None, None)
            else
              match api.manifests.load(mh.digest)
              case Err(e) => NotFound(e)
              case Ok(trie) =>
                match api.manifests.getEntry(trie, path)
                case None => NotFound(ResourceEntryNotFound(path))
                case Some(target) => Serve(target)
  }

  /** Api.Get. A reader is handed out only with no error, and always over
      the content key it reports; an outcome with neither reader nor error is
      an ambiguous (300) entry or an unsupported digest (422). */
  function Get(api: Api, manifestKey: Key, path: string): (r: GetResult)
    ensures r.reader.Some? ==> r.err.None? && r.contentKey == Some(r.reader.value.key)
    ensures r.reader.Some? ==> r.status != StatusMultipleChoices
    ensures r.reader.None? && r.err.None? ==>
              r.status == StatusMultipleChoices || r.status == StatusUnprocessableEntity
    ensures r.err.Some? ==> r.contentKey.None?
  {
    match api.manifests.load(manifestKey)
    case Err(e) => NotFound(e)
    case Ok(trie) =>
      match api.manifests.getEntry(trie, path)
      case None => NotFound(EntryNotFound(path))
      case Some(entry) =>
        if entry.contentType == ResourceContentType then GetResource(api, entry, path)
        else Serve(entry)
  }

  /** Get's outcome when the manifest cannot be loaded, with the loader's own
      error, or has no entry for the path, with EntryNotFound. */
  lemma GetMissing(api: Api, manifestKey: Key, path: string)
    requires api.manifests.load(manifestKey).Err? ||
             api.manifests.getEntry(api.manifests.load(manifestKey).value, path).None?
    ensures api.manifests.load(manifestKey).Err? ==>
              Get(api, manifestKey, path) == NotFound(api.manifests.load(manifestKey).error)
    ensures api.manifests.load(manifestKey).Ok? ==>
              Get(api, manifestKey, path) == NotFound(EntryNotFound(path))
    ensures Get(api, manifestKey, path).status == StatusNotFound
    ensures Get(api, manifestKey, path).reader.None? && Get(api, manifestKey, path).err.Some?
  {
  }

  /** The entry Get finds for a path, when the manifest loads and has one. */
  function Found(api: Api, manifestKey: Key, path: string): Option<Entry>
  {
    match api.manifests.load(manifestKey)
    case Err(_) => None
    case Ok(trie) => api.manifests.getEntry(trie, path)
  }

  /** An entry that is not a resource pointer is served as it stands. */
  lemma GetServes(api: Api, manifestKey: Key, path: string)
    requires Found(api, manifestKey, path).Some?
    requires Found(api, manifestKey, path).value.contentType != ResourceContentType
    ensures Get(api, manifestKey, path) == Serve(Found(api, manifestKey, path).value)
  {
  }

  /** An ambiguous entry yields no reader but does give its content key and
      MIME type. */
  lemma GetAmbiguous(api: Api, manifestKey: Key, path: string)
    requires Found(api, manifestKey, path).Some?
    requires var e := Found(api, manifestKey, path).value;
             e.contentType != ResourceContentType && e.status == StatusMultipleChoices
    ensures var e := Found(api, manifestKey, path).value;
            Get(api, manifestKey, path) ==
              GetResult(None, e.contentType, StatusMultipleChoices, Some(HexCodec.Hex2Bytes(e.hash)), None)
  {
  }

  /** The update and the payload a resource-pointer entry leads to. */
  predicate ResourceFound(api: Api, entry: Entry)
  {
    api.resource.lookupLatest(entry.hash).Ok? &&
    api.resource.getContent(entry.hash, api.resource.lookupLatest(entry.hash).value).Ok?
  }

  /** A raw (not multihash) resource update short-circuits: status 200, no
      reader, ErrResourceReturn carrying the resource name, and the
      multihash decoder is never consulted. */
  lemma GetRawResource(api: Api, manifestKey: Key, path: string, decode: Bytes -> Result<Multihash>)
    requires Found(api, manifestKey, path).Some?
    requires var e := Found(api, manifestKey, path).value;
             e.contentType == ResourceContentType && ResourceFound(api, e) &&
             !api.resource.lookupLatest(e.hash).value.multihash
    ensures var e := Found(api, manifestKey, path).value;
            Get(api, manifestKey, path) ==
              GetResult(None, ResourceContentType, StatusOK, None, Some(ResourceReturn(e.hash)))
    ensures Get(api.(decodeMultihash := decode), manifestKey, path) == Get(api, manifestKey, path)
  {
  }

  /** A multihash payload that fails to decode gives 500 with the decoder's
      error; one whose code is not Keccak-256 gives 422 with no reader and,
      as written, no error either. */
  lemma GetBadDigest(api: Api, manifestKey: Key, path: string)
    requires Found(api, manifestKey, path).Some?
    requires var e := Found(api, manifestKey, path).value;
             e.contentType == ResourceContentType && ResourceFound(api, e) &&
             api.resource.lookupLatest(e.hash).value.multihash
    ensures var e := Found(api, manifestKey, path).value;
            var decoded := api.decodeMultihash(api.resource.getContent(e.hash, api.resource.lookupLatest(e.hash).value).value.1);
            && (decoded.Err? ==>
                  Get(api, manifestKey, path) ==
                    GetResult(None, "", StatusInternalServerError, None, Some(decoded.error)))
            && (decoded.Ok? && decoded.value.code != Keccak256 ==>
                  Get(api, manifestKey, path) == GetResult(None, "", StatusUnprocessableEntity, None, None))
  {
  }

  /** A resource pointer whose update or payload cannot be fetched gives 404
      with the handler's error and no reader. */
  lemma GetResourceMissing(api: Api, manifestKey: Key, path: string)
    requires Found(api, manifestKey, path).Some?
    requires var e := Found(api, manifestKey, path).value;
             e.contentType == ResourceContentType && !ResourceFound(api, e)
    ensures var e := Found(api, manifestKey, path).value;
            && (api.resource.lookupLatest(e.hash).Err? ==>
                  Get(api, manifestKey, path) == NotFound(api.resource.lookupLatest(e.hash).error))
            && (api.resource.lookupLatest(e.hash).Ok? ==>
                  Get(api, manifestKey, path) == NotFound(api.resource.getContent(e.hash, api.resource.lookupLatest(e.hash).value).error))
    ensures var r := Get(api, manifestKey, path);
            r.status == StatusNotFound && r.reader.None? && r.err.Some?
  {
  }

  /** When the manifest named by a Keccak-256 digest does not load, or holds
      no entry for the path, Get gives 404 with no reader: the loader's error,
      or "manifest (resource multihash) entry not found". */
  lemma GetResourceTargetMissing(api: Api, manifestKey: Key, path: string)
    requires Found(api, manifestKey, path).Some?
    requires var e := Found(api, manifestKey, path).value;
             e.contentType == ResourceContentType && ResourceFound(api, e) &&
             api.resource.lookupLatest(e.hash).value.multihash
    requires var e := Found(api, manifestKey, path).value;
             var decoded := api.decodeMultihash(api.resource.getContent(e.hash, api.resource.lookupLatest(e.hash).value).value.1);
             decoded.Ok? && decoded.value.code == Keccak256 &&
             Found(api, decoded.value.digest, path).None?
    ensures var e := Found(api, manifestKey, path).value;
            var digest := api.decodeMultihash(api.resource.getContent(e.hash, api.resource.lookupLatest(e.hash).value).value.1).value.digest;
            && (api.manifests.load(digest).Err? ==>
                  Get(api, manifestKey, path) == NotFound(api.manifests.load(digest).error))
            && (api.manifests.load(digest).Ok? ==>
                  Get(api, manifestKey, path) == NotFound(ResourceEntryNotFound(path)))
    ensures var r := Get(api, manifestKey, path);
            r.status == StatusNotFound && r.reader.None? && r.err.Some?
  {
  }

  /** One level of indirection: when a resource pointer's multihash names a
      manifest holding the path, Get through the pointer answers what Get on
      that manifest answers, provided the entry found there is not itself a
      resource pointer. */
  lemma GetThroughResource(api: Api, manifestKey: Key, path: string)
    requires Found(api, manifestKey, path).Some?
    requires var e := Found(api, manifestKey, path).value;
             e.contentType == ResourceContentType && ResourceFound(api, e) &&
             api.resource.lookupLatest(e.hash).value.multihash
    requires var e := Found(api, manifestKey, path).value;
             var decoded := api.decodeMultihash(api.resource.getContent(e.hash, api.resource.lookupLatest(e.hash).value).value.1);
             decoded.Ok? && decoded.value.code == Keccak256 &&
             Found(api, decoded.value.digest, path).Some? &&
             Found(api, decoded.value.digest, path).value.contentType != ResourceContentType
    ensures var e := Found(api, manifestKey, path).value;
            var digest := api.decodeMultihash(api.resource.getContent(e.hash, api.resource.lookupLatest(e.hash).value).value.1).value.digest;
            Get(api, manifestKey, path) == Get(api, digest, path)
  {
  }

  /** The indirection is not repeated: an entry reached through a resource
      pointer is served as content even when it is itself a resource
      pointer. */
  lemma GetIndirectionIsSingle(api: Api, manifestKey: Key, path: string)
    requires Found(api, manifestKey, path).Some?
    requires var e := Found(api, manifestKey, path).value;
             e.contentType == ResourceContentType && ResourceFound(api, e) &&
             api.resource.lookupLatest(e.hash).value.multihash
    requires var e := Found(api, manifestKey, path).value;
             var decoded := api.decodeMultihash(api.resource.getContent(e.hash, api.resource.lookupLatest(e.hash).value).value.1);
             decoded.Ok? && decoded.value.code == Keccak256 &&
             Found(api, decoded.value.digest, path).Some?
    ensures var e := Found(api, manifestKey, path).value;
            var digest := api.decodeMultihash(api.resource.getContent(e.hash, api.resource.lookupLatest(e.hash).value).value.1).value.digest;
            Get(api, manifestKey, path) == Serve(Found(api, digest, path).value)
  {
  }

  /** The manifest loader reads the text of a single-entry manifest stored
      under `key` back as that one entry, under the empty path. A JSON
      decoder does this only when the content type needs no escaping. */
  ghost predicate LoadsAsSingleton(api: Api, key: Key, text: string)
  {
    && api.manifests.load(key).Ok?
    && ManifestText.ParseSingleton(text).Some?
    && var (hash, contentType) := ManifestText.ParseSingleton(text).value;
       api.manifests.getEntry(api.manifests.load(key).value, "") ==
         Some(Entry("", hash, contentType, 0, 0, 0, 0))
  }

  /** Put then Get: reading the empty path of the manifest Put returns gives
      a reader over the stored content's key and the content type given to
      Put. The status is the entry's own Status field, 0 for a manifest read
      from JSON that does not set it. */
  lemma PutThenGet(api: Api, content: string, contentType: string, toEncrypt: bool)
    requires ManifestText.JsonPlain(contentType) && contentType != ResourceContentType
    requires Put(api.dpa, content, contentType, toEncrypt).Ok?
    requires var contentKey := api.dpa.store(content, toEncrypt).value.key;
             LoadsAsSingleton(api, Put(api.dpa, content, contentType, toEncrypt).value.key,
                              ManifestText.Singleton(contentKey, contentType))
    ensures var contentKey := api.dpa.store(content, toEncrypt).value.key;
            Get(api, Put(api.dpa, content, contentType, toEncrypt).value.key, "") ==
              GetResult(Some(Reader(contentKey)), contentType, 0, Some(contentKey), None)
  {
    assert ManifestText.QuoteFree(contentType);
    PutManifestNamesContent(api.dpa, content, contentType, toEncrypt);
  }

  // ---------------------------------------------------------------- Modify

  /** The structural edit of Modify: a non-empty hash upserts the entry at
      path (its other fields zero), an empty hash deletes it; no other path
      changes. */
  function EditTrie(t: Trie, path: string, contentHash: string, contentType: string): (r: Trie)
    ensures contentHash != "" ==>
              path in r.entries && r.entries[path] == Entry(path, contentHash, contentType, 0, 0, 0, 0)
    ensures contentHash == "" ==> path !in r.entries
    ensures forall p :: p != path ==> (p in r.entries <==> p in t.entries)
    ensures forall p :: p != path && p in t.entries ==> r.entries[p] == t.entries[p]
  {
    if contentHash != "" then
      Trie(t.entries[path := Entry(path, contentHash, contentType, 0, 0, 0, 0)])
    else
      Trie(t.entries - {path})
  }

  /** Api.Modify: a new root is returned only when loading and storing both
      succeed; the first failure is returned otherwise. */
  function Modify(m: Manifests, key: Key, path: string, contentHash: string, contentType: string): (r: Result<Key>)
    ensures m.load(key).Err? ==> r == Err(m.load(key).error)
    ensures m.load(key).Ok? ==> r == m.recalcAndStore(EditTrie(m.load(key).value, path, contentHash, contentType))
  {
    match m.load(key)
    case Err(e) => Err(e)
    case Ok(trie) => m.recalcAndStore(EditTrie(trie, path, contentHash, contentType))
  }

  /** The trie store reads back what it stored. */
  ghost predicate StoresFaithfully(m: Manifests)
  {
    forall t :: m.recalcAndStore(t).Ok? ==> m.load(m.recalcAndStore(t).value) == Ok(t)
  }

  /** Upserting a path and then deleting it (Modify with an empty hash)
      stores the original trie without that path. */
  lemma UpsertThenDelete(m: Manifests, key: Key, path: string, contentHash: string, contentType: string)
    requires StoresFaithfully(m)
    requires contentHash != "" && Modify(m, key, path, contentHash, contentType).Ok?
    ensures var root := Modify(m, key, path, contentHash, contentType).value;
            Modify(m, root, path, "", "") == m.recalcAndStore(Trie(m.load(key).value.entries - {path}))
  {
    var t := m.load(key).value;
    var t1 := EditTrie(t, path, contentHash, contentType);
    var t2 := EditTrie(t1, path, "", "");
    assert t2.entries == t.entries - {path};
  }

  /** Deleting is idempotent: a second delete of the same path stores the
      same trie as the first. */
  lemma DeleteIdempotent(t: Trie, path: string)
    ensures EditTrie(EditTrie(t, path, "", ""), path, "", "") == EditTrie(t, path, "", "")
  {
    assert (t.entries - {path}) - {path} == t.entries - {path};
  }

  // ---------------------------------------------------------------- resources

  const PeriodZeroMessage: string := "Period can't be 0"

  /** Api.ResourceLookup: a version needs a period; otherwise the most
      specific lookup asked for is made (version, then period, then latest),
      and the content is fetched only after it succeeds, from the update it
      found. */
  function ResourceLookup(rh: ResourceHandler, name: string, period: uint32, version: uint32): (r: Result<(Key, Bytes)>)
    ensures version != 0 && period == 0 ==> r == Err(InvalidValue(PeriodZeroMessage))
    ensures version != 0 && period != 0 && rh.lookupVersion(name, period, version).Ok? ==>
              r == rh.getContent(name, rh.lookupVersion(name, period, version).value)
    ensures version == 0 && period != 0 && rh.lookupHistorical(name, period).Ok? ==>
              r == rh.getContent(name, rh.lookupHistorical(name, period).value)
    ensures version == 0 && period == 0 && rh.lookupLatest(name).Ok? ==>
              r == rh.getContent(name, rh.lookupLatest(name).value)
    ensures version != 0 && period != 0 && rh.lookupVersion(name, period, version).Err? ==>
              r == Err(rh.lookupVersion(name, period, version).error)
    ensures version == 0 && period != 0 && rh.lookupHistorical(name, period).Err? ==>
              r == Err(rh.lookupHistorical(name, period).error)
    ensures version == 0 && period == 0 && rh.lookupLatest(name).Err? ==>
              r == Err(rh.lookupLatest(name).error)
  {
    var found :=
      if version != 0 then
        if period == 0 then Err(InvalidValue(PeriodZeroMessage))
        else rh.lookupVersion(name, period, version)
      else if period != 0 then rh.lookupHistorical(name, period)
      else rh.lookupLatest(name);
    match found
    case Err(e) => Err(e)
    case Ok(u) => rh.getContent(name, u)
  }

  /** Only the lookup that the period and version select is consulted: a
      handler that differs in the other two lookups answers the same. */
  lemma ResourceLookupConsultsOne(rh: ResourceHandler, other: ResourceHandler, name: string,
                                  period: uint32, version: uint32)
    requires other.getContent == rh.getContent
    requires version != 0 && period != 0 ==>
               other.lookupVersion(name, period, version) == rh.lookupVersion(name, period, version)
    requires version == 0 && period != 0 ==>
               other.lookupHistorical(name, period) == rh.lookupHistorical(name, period)
    requires version == 0 && period == 0 ==> other.lookupLatest(name) == rh.lookupLatest(name)
    ensures ResourceLookup(other, name, period, version) == ResourceLookup(rh, name, period, version)
  {
  }

  /** A handler whose resource has content at period 1 but whose latest
      update, at period 2, has none yet. */
  function TwoPeriodHandler(): ResourceHandler
  {
    ResourceHandler(
      name => Ok(Update(false, 2, 1)),
      (name, period: uint32) => Ok(Update(false, period, 1)),
      (name, period: uint32, version: uint32) => Ok(Update(false, period, version)),
      (name, u: Update) => if u.period == 1 then Ok(([], [])) else Err(Collaborator(0)),
      (name, data) => Written(Err(Collaborator(0)), 0, 0),
      (name, data) => Written(Err(Collaborator(0)), 0, 0))
  }

  /** The period asked for decides the content: a historical lookup and a
      latest lookup of the same name can answer differently. */
  lemma PeriodSelectsContent()
    ensures ResourceLookup(TwoPeriodHandler(), "r", 1, 0) == Ok(([], []))
    ensures ResourceLookup(TwoPeriodHandler(), "r", 0, 0) == Err(Collaborator(0))
  {
  }

  /** The four results of resourceUpdate. */
  datatype UpdateResult = UpdateResult(key: Option<Key>, period: uint32, version: uint32, err: Option<Error>)

  /** resourceUpdate: writes through UpdateMultihash or Update as asked, then
      reports the last period and version the handler holds after that
      write, whatever its outcome (their own errors are discarded). */
  function ResourceUpdateWith(rh: ResourceHandler, name: string, data: Bytes, multihash: bool): (r: UpdateResult)
    ensures var written := if multihash then rh.updateMultihash(name, data) else rh.update(name, data);
            r.period == written.period && r.version == written.version
    ensures r.key.Some? <==> r.err.None?
    ensures var written := if multihash then rh.updateMultihash(name, data) else rh.update(name, data);
            (written.outcome.Ok? ==> r.key == Some(written.outcome.value)) &&
            (written.outcome.Err? ==> r.err == Some(written.outcome.error))
  {
    var written := if multihash then rh.updateMultihash(name, data) else rh.update(name, data);
    match written.outcome
    case Ok(k) => UpdateResult(Some(k), written.period, written.version, None)
    case Err(e) => UpdateResult(None, written.period, written.version, Some(e))
  }

  /** Api.ResourceUpdate: a raw write; UpdateMultihash is not used. */
  function ResourceUpdate(rh: ResourceHandler, name: string, data: Bytes): (r: UpdateResult)
    ensures forall w :: ResourceUpdateWith(rh.(updateMultihash := w), name, data, false) == r
    ensures rh.update(name, data).outcome.Ok? ==> r.key == Some(rh.update(name, data).outcome.value)
    ensures r.period == rh.update(name, data).period && r.version == rh.update(name, data).version
  {
    ResourceUpdateWith(rh, name, data, false)
  }

  /** Api.ResourceUpdateMultihash: a multihash write; the raw Update is not
      used. */
  function ResourceUpdateMultihash(rh: ResourceHandler, name: string, data: Bytes): (r: UpdateResult)
    ensures forall w :: ResourceUpdateWith(rh.(update := w), name, data, true) == r
    ensures rh.updateMultihash(name, data).outcome.Ok? ==>
              r.key == Some(rh.updateMultihash(name, data).outcome.value)
    ensures r.period == rh.updateMultihash(name, data).period &&
            r.version == rh.updateMultihash(name, data).version
  {
    ResourceUpdateWith(rh, name, data, true)
  }

  // ---------------------------------------------------------------- paths

  /** The leading-slash trim of AddFile, RemoveFile and AppendFile: `path[:1]`
      panics on an empty path, so the callers supply a non-empty one. */
  function TrimRootDir(path: string): (r: string)
    requires |path| > 0
    ensures path[0] == '/' ==> "/" + r == path
    ensures path[0] != '/' ==> r == path
  {
    if path[..1] == "/" then path[1..] else path
  }
}

=== FILE: hex_codec.dfy ===
/** The two hex conversions the API relies on: the text form of a key
    (storage.Key's String, lower-case hex of every byte) that Put writes into
    a manifest, and common.Hex2Bytes, which Get applies to a manifest entry's
    hash to obtain the content key. */
module HexCodec {
  import opened Common

  /** The lower-case hex digit for a value below 16. */
  function HexDigit(d: nat): (c: char)
    requires d < 16
    ensures DigitValue(c) == Some(d)
  {
    if d < 10 then ('0' as int + d) as char else ('a' as int + d - 10) as char
  }

  /** The lower-case hex text of a key, two digits per byte. */
  function Hex(k: Bytes): (s: string)
    ensures |s| == 2 * |k|
    ensures forall i :: 0 <= i < |s| ==> DigitValue(s[i]).Some?
  {
    if |k| == 0 then ""
    else [HexDigit(k[0] / 16), HexDigit(k[0] % 16)] + Hex(k[1..])
  }

  /** The value of one hex digit, either case; None for any other character. */
  function DigitValue(c: char): (v: Option<nat>)
    ensures v.Some? ==> v.value < 16
  {
    if '0' <= c <= '9' then Some(c as int - '0' as int)
    else if 'a' <= c <= 'f' then Some(c as int - 'a' as int + 10)
    else if 'A' <= c <= 'F' then Some(c as int - 'A' as int + 10)
    else None
  }

  /** common.Hex2Bytes: decodes digit pairs from the front and keeps the
      bytes decoded before the first malformed pair or a dangling odd digit
      (the error of hex.DecodeString is discarded). */
  function Hex2Bytes(s: string): (k: Bytes)
    ensures |k| <= |s| / 2
  {
    if |s| < 2 then []
    else match (DigitValue(s[0]), DigitValue(s[1]))
      case (Some(hi), Some(lo)) => [hi * 16 + lo] + Hex2Bytes(s[2..])
      case _ => []
  }

  /** Decoding the text form of a key gives the key back: the content key Put
      writes into the manifest is the one Get reads out of it. */
  lemma {:induction false} Hex2BytesHex(k: Bytes)
    ensures Hex2Bytes(Hex(k)) == k
  {
    if |k| > 0 {
      var s := Hex(k);
      assert s[0] == HexDigit(k[0] / 16) && s[1] == HexDigit(k[0] % 16);
      assert s[2..] == Hex(k[1..]);
      Hex2BytesHex(k[1..]);
    }
  }

  /** Hex is injective: distinct keys have distinct hex text. */
  lemma HexInjective(a: Bytes, b: Bytes)
    requires Hex(a) == Hex(b)
    ensures a == b
  {
    Hex2BytesHex(a);
    Hex2BytesHex(b);
  }
}

=== FILE: manifest_text.dfy ===
/** The JSON text of the single-entry manifest that Api.Put stores, and a
    reader for exactly that shape, which recovers the entry's hash and
    content type. The full manifest JSON decoder lives in manifest.go, which
    is not part of this model. */
module ManifestText {
  import opened Common
  import HexCodec

  const Head: string := "{\"entries\":[{\"hash\":\""
  const Mid: string := "\",\"contentType\":\""
  const Tail: string := "\"}]}"

  /** `{"entries":[{"hash":"<key>","contentType":"<contentType>"}]}`: the key
      is written with its String form (hex) and the content type verbatim,
      without JSON escaping. */
  function Singleton(key: Key, contentType: string): (text: string)
    ensures |text| == |Head| + 2 * |key| + |Mid| + |contentType| + |Tail|
  {
    Head + HexCodec.Hex(key) + Mid + contentType + Tail
  }

  predicate QuoteFree(s: string) { forall i :: 0 <= i < |s| ==> s[i] != '"' }

  /** Text a JSON string literal holds unchanged without escaping: no quote,
      no backslash, no control character. */
  predicate JsonPlain(s: string)
  {
    forall i :: 0 <= i < |s| ==> s[i] != '"' && s[i] != '\\' && s[i] >= ' '
  }

  /** Index of the first double quote in s, or |s| when there is none. */
  function QuoteIndex(s: string): (i: nat)
    ensures i <= |s|
    ensures QuoteFree(s[..i])
    ensures i < |s| ==> s[i] == '"'
  {
    if |s| == 0 || s[0] == '"' then 0 else 1 + QuoteIndex(s[1..])
  }

  /** Reads the hash and content type out of a single-entry manifest text;
      None when the text does not have that shape. */
  function ParseSingleton(text: string): (r: Option<(string, string)>)
    ensures r.Some? ==> QuoteFree(r.value.0) && QuoteFree(r.value.1)
    ensures r.Some? ==> text == Head + r.value.0 + Mid + r.value.1 + Tail
  {
    if !(Head <= text) then None
    else
      var rest := text[|Head|..];
      var i := QuoteIndex(rest);
      var afterHash := rest[i..];
      if !(Mid <= afterHash) then None
      else
        var tail := afterHash[|Mid|..];
        var j := QuoteIndex(tail);
        if tail[j..] != Tail then None
        else
          Reassemble(text, rest, i, afterHash, tail, j);
          Some((rest[..i], tail[..j]))
  }

  /** The pieces ParseSingleton cuts a text into put it back together. */
  lemma Reassemble(text: string, rest: string, i: nat, afterHash: string, tail: string, j: nat)
    requires Head <= text && rest == text[|Head|..]
    requires i <= |rest| && afterHash == rest[i..]
    requires Mid <= afterHash && tail == afterHash[|Mid|..]
    requires j <= |tail| && tail[j..] == Tail
    ensures text == Head + rest[..i] + Mid + tail[..j] + Tail
  {
    SplitAt(tail, j);
    SplitAt(afterHash, |Mid|);
    SplitAt(rest, i);
    SplitAt(text, |Head|);
    Regroup(Head, rest[..i], Mid, tail[..j], Tail);
  }

  lemma SplitAt(s: string, k: nat)
    requires k <= |s|
    ensures s == s[..k] + s[k..]
  {
  }

  lemma Regroup(a: string, b: string, c: string, d: string, e: string)
    ensures a + (b + (c + (d + e))) == a + b + c + d + e
  {
  }

  /** The first quote of `a + b` is the one that starts b, when a has none. */
  lemma {:induction false} QuoteIndexAfter(a: string, b: string)
    requires QuoteFree(a) && |b| > 0 && b[0] == '"'
    ensures QuoteIndex(a + b) == |a|
  {
    if |a| > 0 {
      assert (a + b)[1..] == a[1..] + b;
      QuoteIndexAfter(a[1..], b);
    } else {
      assert a + b == b;
    }
  }

  /** Put's manifest text reads back as the content key's hex form and the
      content type, provided the content type holds no double quote (the
      text is not JSON-escaped). */
  lemma SingletonRoundTrip(key: Key, contentType: string)
    requires QuoteFree(contentType)
    ensures ParseSingleton(Singleton(key, contentType)) == Some((HexCodec.Hex(key), contentType))
  {
    var h := HexCodec.Hex(key);
    assert QuoteFree(h) by {
      forall i | 0 <= i < |h| ensures h[i] != '"' {
        assert HexCodec.DigitValue(h[i]).Some?;
      }
    }
    var tail := contentType + Tail;
    var afterHash := Mid + tail;
    var rest := h + afterHash;
    Regroup(Head, h, Mid, contentType, Tail);
    Concat(Head, rest);
    Concat(h, afterHash);
    QuoteIndexAfter(h, afterHash);
    Concat(Mid, tail);
    Concat(contentType, Tail);
    QuoteIndexAfter(contentType, Tail);
  }

  /** Distinct keys give distinct manifest texts for the same content type. */
  lemma SingletonInjective(a: Key, b: Key, contentType: string)
    requires Singleton(a, contentType) == Singleton(b, contentType)
    ensures a == b
  {
    var text := Singleton(a, contentType);
    assert |a| == |b|;
    assert HexCodec.Hex(a) == text[|Head|..|Head| + 2 * |a|];
    assert HexCodec.Hex(b) == text[|Head|..|Head| + 2 * |b|];
    HexCodec.HexInjective(a, b);
  }

  /** The two halves of a concatenation are its slices. */
  lemma Concat(a: string, b: string)
    ensures (a + b)[..|a|] == a && (a + b)[|a|..] == b
  {
  }

  /** ParseSingleton never returns a content type holding a quote, so such
      a content type does not read back out of Put's text. */
  lemma UnescapedQuoteBreaksRoundTrip(key: Key, contentType: string)
    requires !QuoteFree(contentType)
    ensures ParseSingleton(Singleton(key, contentType)) != Some((HexCodec.Hex(key), contentType))
  {
  }

  /** The content type sits in Put's text verbatim, right after the hash. */
  lemma SingletonContentTypeVerbatim(key: Key, contentType: string)
    ensures var start := |Head| + 2 * |key| + |Mid|;
            Singleton(key, contentType)[start..start + |contentType|] == contentType
  {
    var front := Head + HexCodec.Hex(key) + Mid;
    assert Singleton(key, contentType) == front + contentType + Tail;
    Middle(front, contentType, Tail);
  }

  /** A quote in the content type is a raw, unescaped quote inside the
      content-type field of Put's text. */
  lemma SingletonRawQuote(key: Key, contentType: string)
    requires !QuoteFree(contentType)
    ensures QuoteIndex(contentType) < |contentType|
    ensures Singleton(key, contentType)[|Head| + 2 * |key| + |Mid| + QuoteIndex(contentType)] == '"'
  {
    var q := QuoteIndex(contentType);
    QuoteIndexFinds(contentType);
    SingletonContentTypeVerbatim(key, contentType);
    var start := |Head| + 2 * |key| + |Mid|;
    assert Singleton(key, contentType)[start + q] == Singleton(key, contentType)[start..start + |contentType|][q];
  }

  /** A string holding a quote has its first quote inside it. */
  lemma QuoteIndexFinds(s: string)
    requires !QuoteFree(s)
    ensures QuoteIndex(s) < |s|
  {
    assert s[..|s|] == s;
  }

  /** The middle part of a three-part concatenation is its middle slice. */
  lemma Middle(a: string, b: string, c: string)
    ensures (a + b + c)[|a|..|a| + |b|] == b
  {
  }
}

=== FILE: multi_resolver.dfy ===
/** MultiResolver: name resolution through resolver backends chosen by the
    name's top-level domain. Each TLD token (the empty token being the
    default) maps to an ordered chain of backends; a request picks exactly one
    chain and asks its backends in order until one succeeds. */
module MultiResolvers {
  import opened Common

  /** A block header as returned by HeaderByNumber; only its identity matters. */
  datatype Header = Header(number: int, hash: Hash)

  /** A ResolveValidator backend, modelled by what each of its three calls
      returns: a value or an error. */
  datatype Backend = Backend(
    resolve: string -> Result<Hash>,
    owner: Hash -> Result<Address>,
    headerByNumber: int -> Result<Header>)

  /** The options NewMultiResolver applies in order. */
  datatype ResolverOption =
    | WithResolver(backend: Backend, tld: string)
    | WithNameHash(nameHash: string -> Hash)

  /** The text of NoResolverError.Error. */
  const NoDefaultMessage: string := "no ENS resolver"
  const TldMessageHead: string := "no ENS endpoint configured to resolve ."
  const TldMessageTail: string := " TLD names"

  function NoResolverMessage(tld: string): (msg: string)
    ensures tld == "" <==> msg == NoDefaultMessage
    ensures tld != "" ==> |msg| == |TldMessageHead| + |tld| + |TldMessageTail| &&
                          msg[|TldMessageHead|..|msg| - |TldMessageTail|] == tld
    ensures tld != "" ==> TldMessageHead <= msg && msg[|msg| - |TldMessageTail|..] == TldMessageTail
  {
    if tld == "" then NoDefaultMessage
    else
      var msg := TldMessageHead + tld + TldMessageTail;
      assert msg[|TldMessageHead|..|msg| - |TldMessageTail|] == tld;
      msg
  }

  /** path.Ext: the suffix of name from its last dot, provided no slash
      follows that dot; "" when there is no such dot. */
  function Ext(name: string): (e: string)
    ensures e != "" ==> |e| <= |name| && e[0] == '.' && name[|name| - |e|..] == e
    ensures forall i :: 1 <= i < |e| ==> e[i] != '.' && e[i] != '/'
    ensures e == "" ==> forall i :: 0 <= i < |name| && name[i] == '.' ==>
                          exists j :: i < j < |name| && name[j] == '/'
  {
    if |name| == 0 then ""
    else
      var last := name[|name| - 1];
      if last == '/' then ""
      else if last == '.' then "."
      else
        var e := Ext(name[..|name| - 1]);
        if e == "" then "" else e + [last]
  }

  /** The TLD token of a name: its extension without the dot, "" for none. */
  function Tld(name: string): string
  {
    var e := Ext(name);
    if e == "" then "" else e[1..]
  }

  /** A Go map read: a missing TLD reads as the empty chain. */
  function Lookup(resolvers: map<string, seq<Backend>>, tld: string): seq<Backend>
  {
    if tld in resolvers then resolvers[tld] else []
  }

  /** The invariant that registration keeps: every registered TLD has at
      least one backend. */
  ghost predicate ChainsNonEmpty(resolvers: map<string, seq<Backend>>)
  {
    forall tld :: tld in resolvers ==> |resolvers[tld]| > 0
  }

  /** getResolveValidator: the chain registered for the name's TLD if there
      is one, otherwise the default chain; NoResolverError when neither
      exists. */
  function SelectChain(resolvers: map<string, seq<Backend>>, name: string): (r: Result<seq<Backend>>)
    ensures Ext(name) != "" && Tld(name) in resolvers ==> r == Ok(resolvers[Tld(name)])
    ensures !(Ext(name) != "" && Tld(name) in resolvers) && r.Ok? ==> r.value == Lookup(resolvers, "")
    ensures r.Err? <==> !(Ext(name) != "" && Tld(name) in resolvers) && |Lookup(resolvers, "")| == 0
    ensures r.Err? ==> r.error == NoResolver(Tld(name))
    ensures ChainsNonEmpty(resolvers) && r.Ok? ==> |r.value| > 0
  {
    var rs := Lookup(resolvers, "");
    var tld := Tld(name);
    if Ext(name) != "" && tld in resolvers then Ok(resolvers[tld])
    else if |rs| == 0 then Err(NoResolver(tld))
    else Ok(rs)
  }

  /** The first success among the backends' answers, in order; the last
      answer (an error) when none succeeds. */
  function FirstOk<T>(answers: seq<Result<T>>): (r: Result<T>)
    requires |answers| > 0
    ensures r in answers
    ensures r.Ok? <==> exists i :: 0 <= i < |answers| && answers[i].Ok?
    ensures r.Err? ==> r == answers[|answers| - 1]
  {
    if |answers| == 1 || answers[0].Ok? then answers[0]
    else FirstOk(answers[1..])
  }

  /** The answer FirstOk picks is the first success: every earlier backend
      failed. */
  lemma {:induction false} FirstOkIsFirst<T>(answers: seq<Result<T>>, i: nat)
    requires i < |answers| && answers[i].Ok?
    requires forall j :: 0 <= j < i ==> answers[j].Err?
    ensures FirstOk(answers) == answers[i]
  {
    if i > 0 {
      FirstOkIsFirst(answers[1..], i - 1);
    }
  }

  function ResolveAnswers(chain: seq<Backend>, addr: string): (rs: seq<Result<Hash>>)
    ensures |rs| == |chain|
  {
    seq(|chain|, i requires 0 <= i < |chain| => chain[i].resolve(addr))
  }

  function OwnerAnswers(chain: seq<Backend>, node: Hash): (rs: seq<Result<Address>>)
    ensures |rs| == |chain|
  {
    seq(|chain|, i requires 0 <= i < |chain| => chain[i].owner(node))
  }

  function HeaderAnswers(chain: seq<Backend>, blockNr: int): (rs: seq<Result<Header>>)
    ensures |rs| == |chain|
  {
    seq(|chain|, i requires 0 <= i < |chain| => chain[i].headerByNumber(blockNr))
  }

  /** What MultiResolver.Resolve answers for addr. */
  function ResolveSpec(resolvers: map<string, seq<Backend>>, addr: string): Result<Hash>
    requires ChainsNonEmpty(resolvers)
  {
    match SelectChain(resolvers, addr)
    case Err(e) => Err(e)
    case Ok(chain) => FirstOk(ResolveAnswers(chain, addr))
  }

  /** What MultiResolver.ValidateOwner answers: whether the first owner a
      backend reports for the name's node is `address`. */
  function ValidateOwnerSpec(resolvers: map<string, seq<Backend>>, nameHash: string -> Hash,
                             name: string, address: Address): Result<bool>
    requires ChainsNonEmpty(resolvers)
  {
    match SelectChain(resolvers, name)
    case Err(e) => Err(e)
    case Ok(chain) =>
      match FirstOk(OwnerAnswers(chain, nameHash(name)))
      case Ok(owner) => Ok(owner == address)
      case Err(e) => Err(e)
  }

  /** What MultiResolver.HeaderByNumber answers. */
  function HeaderByNumberSpec(resolvers: map<string, seq<Backend>>, name: string, blockNr: int): Result<Header>
    requires ChainsNonEmpty(resolvers)
  {
    match SelectChain(resolvers, name)
    case Err(e) => Err(e)
    case Ok(chain) => FirstOk(HeaderAnswers(chain, blockNr))
  }

  /** The backends registered for tld by a list of options, in the order of
      the options. */
  function ChainFor(opts: seq<ResolverOption>, tld: string): seq<Backend>
  {
    if |opts| == 0 then []
    else
      var o := opts[|opts| - 1];
      ChainFor(opts[..|opts| - 1], tld) + (if o.WithResolver? && o.tld == tld then [o.backend] else [])
  }

  /** The name hash function in force after a list of options: the last one
      given, else ens.EnsNode. */
  function NameHashAfter(opts: seq<ResolverOption>, ensNode: string -> Hash): string -> Hash
  {
    if |opts| == 0 then ensNode
    else if opts[|opts| - 1].WithNameHash? then opts[|opts| - 1].nameHash
    else NameHashAfter(opts[..|opts| - 1], ensNode)
  }

  /** Once a name's TLD has a chain of its own, the default chain plays no
      part in choosing: replacing it (by anything, or nothing) changes
      nothing. */
  lemma TldChainIgnoresDefault(resolvers: map<string, seq<Backend>>, name: string, other: seq<Backend>)
    requires Ext(name) != "" && Tld(name) != "" && Tld(name) in resolvers
    ensures SelectChain(resolvers["" := other], name) == SelectChain(resolvers, name)
    ensures SelectChain(resolvers - {""}, name) == SelectChain(resolvers, name)
  {
  }

  /** NoResolverError is raised only when no TLD chain matched and the
      default chain is missing; a name without a dot reports the empty TLD,
      which reads "no ENS resolver". */
  lemma NoResolverOnlyWithoutDefault(resolvers: map<string, seq<Backend>>, name: string)
    requires ChainsNonEmpty(resolvers)
    requires forall i :: 0 <= i < |name| ==> name[i] != '.'
    ensures SelectChain(resolvers, name).Err? <==> "" !in resolvers
    ensures SelectChain(resolvers, name).Err? ==>
              NoResolverMessage(SelectChain(resolvers, name).error.tld) == NoDefaultMessage
  {
  }

  /** A name whose TLD chain fails throughout resolves to the last failure of
      that chain, whatever the default chain would have answered: the
      fallback to the default happens only when choosing a chain, never
      backend by backend. */
  lemma {:induction false} TldFailureDoesNotFallThrough(resolvers: map<string, seq<Backend>>, name: string)
    requires ChainsNonEmpty(resolvers)
    requires Ext(name) != "" && Tld(name) in resolvers
    requires forall b :: b in resolvers[Tld(name)] ==> b.resolve(name).Err?
    ensures var chain := resolvers[Tld(name)];
            ResolveSpec(resolvers, name) == chain[|chain| - 1].resolve(name)
  {
    var chain := resolvers[Tld(name)];
    var answers := ResolveAnswers(chain, name);
    forall i | 0 <= i < |answers| ensures answers[i].Err? {
      assert chain[i] in chain;
    }
    assert !exists i :: 0 <= i < |answers| && answers[i].Ok?;
  }

  /** Resolution answers with the first backend of the chosen chain that
      succeeds; the backends after it are not consulted. */
  lemma ResolveTakesFirstSuccess(resolvers: map<string, seq<Backend>>, addr: string, i: nat)
    requires ChainsNonEmpty(resolvers) && SelectChain(resolvers, addr).Ok?
    requires var chain := SelectChain(resolvers, addr).value;
             i < |chain| && chain[i].resolve(addr).Ok? &&
             forall j :: 0 <= j < i ==> chain[j].resolve(addr).Err?
    ensures ResolveSpec(resolvers, addr) == SelectChain(resolvers, addr).value[i].resolve(addr)
  {
    FirstOkIsFirst(ResolveAnswers(SelectChain(resolvers, addr).value, addr), i);
  }

  class MultiResolver {
    var resolvers: map<string, seq<Backend>>
    var nameHash: string -> Hash

    ghost predicate Valid()
      reads this
    {
      ChainsNonEmpty(resolvers)
    }

    /** The struct literal of NewMultiResolver: no chains, ens.EnsNode as
        name hash. */
    constructor (ensNode: string -> Hash)
      ensures Valid()
      ensures resolvers == map[] && nameHash == ensNode
    {
      resolvers := map[];
      nameHash := ensNode;
    }

    /** The option built by MultiResolverOptionWithResolver: appends r to the
        chain of tld. */
    method AddResolver(r: Backend, tld: string)
      requires Valid()
      modifies this
      ensures Valid()
      ensures resolvers == old(resolvers)[tld := Lookup(old(resolvers), tld) + [r]]
      ensures nameHash == old(nameHash)
    {
      resolvers := resolvers[tld := Lookup(resolvers, tld) + [r]];
    }

    /** The option built by MultiResolverOptionWithNameHash, and SetNameHash. */
    method SetNameHash(f: string -> Hash)
      requires Valid()
      modifies this
      ensures Valid()
      ensures resolvers == old(resolvers) && nameHash == f
    {
      nameHash := f;
    }

    /** MultiResolver.Resolve. */
    method Resolve(addr: string) returns (r: Result<Hash>)
      requires Valid()
      ensures r == ResolveSpec(resolvers, addr)
    {
      var selected := SelectChain(resolvers, addr);
      if selected.Err? {
        return Err(selected.error);
      }
      var rs := selected.value;
      ghost var answers := ResolveAnswers(rs, addr);
      // Go's zero hash and nil error; no chain is empty (Valid), so the loop
      // overwrites them.
      r := Ok(seq(32, _ => 0));
      var i := 0;
      while i < |rs|
        invariant 0 <= i <= |rs|
        invariant forall j :: 0 <= j < i ==> answers[j].Err?
        invariant i > 0 ==> r == answers[i - 1]
      {
        r := rs[i].resolve(addr);
        if r.Ok? {
          FirstOkIsFirst(answers, i);
          return;
        }
        i := i + 1;
      }
    }

    /** MultiResolver.ValidateOwner: errors of all but the last backend are
        hidden. */
    method ValidateOwner(name: string, address: Address) returns (r: Result<bool>)
      requires Valid()
      ensures r == ValidateOwnerSpec(resolvers, nameHash, name, address)
    {
      var selected := SelectChain(resolvers, name);
      if selected.Err? {
        return Err(selected.error);
      }
      var rs := selected.value;
      ghost var answers := OwnerAnswers(rs, nameHash(name));
      var i := 0;
      // stands for Go's nil error; the loop overwrites it (no chain is empty)
      var err := Collaborator(0);
      while i < |rs|
        invariant 0 <= i <= |rs|
        invariant forall j :: 0 <= j < i ==> answers[j].Err?
        invariant i > 0 ==> answers[i - 1] == Err(err)
      {
        var owner := rs[i].owner(nameHash(name));
        if owner.Ok? {
          FirstOkIsFirst(answers, i);
          return Ok(owner.value == address);
        }
        err := owner.error;
        i := i + 1;
      }
      return Err(err);
    }

    /** MultiResolver.HeaderByNumber (the context argument is not modelled). */
    method HeaderByNumber(name: string, blockNr: int) returns (r: Result<Header>)
      requires Valid()
      ensures r == HeaderByNumberSpec(resolvers, name, blockNr)
    {
      var selected := SelectChain(resolvers, name);
      if selected.Err? {
        return Err(selected.error);
      }
      var rs := selected.value;
      ghost var answers := HeaderAnswers(rs, blockNr);
      var i := 0;
      // stands for Go's nil error; the loop overwrites it (no chain is empty)
      var err := Collaborator(0);
      while i < |rs|
        invariant 0 <= i <= |rs|
        invariant forall j :: 0 <= j < i ==> answers[j].Err?
        invariant i > 0 ==> answers[i - 1] == Err(err)
      {
        var header := rs[i].headerByNumber(blockNr);
        if header.Ok? {
          FirstOkIsFirst(answers, i);
          return header;
        }
        err := header.error;
        i := i + 1;
      }
      return Err(err);
    }
  }

  /** NewMultiResolver: applies the options in order. Each TLD's chain holds
      exactly the backends registered for it, in registration order, and no
      TLD is registered with an empty chain. */
  method NewMultiResolver(opts: seq<ResolverOption>, ensNode: string -> Hash) returns (m: MultiResolver)
    ensures fresh(m) && m.Valid()
    ensures forall tld :: tld in m.resolvers <==> |ChainFor(opts, tld)| > 0
    ensures forall tld :: tld in m.resolvers ==> m.resolvers[tld] == ChainFor(opts, tld)
    ensures m.nameHash == NameHashAfter(opts, ensNode)
  {
    m := new MultiResolver(ensNode);
    var i := 0;
    while i < |opts|
      invariant 0 <= i <= |opts|
      invariant m.Valid()
      invariant forall tld :: Lookup(m.resolvers, tld) == ChainFor(opts[..i], tld)
      invariant m.nameHash == NameHashAfter(opts[..i], ensNode)
    {
      assert opts[..i + 1] == opts[..i] + [opts[i]];
      OptionsSnoc(opts[..i], opts[i], ensNode);
      ghost var before := m.resolvers;
      match opts[i] {
        case WithResolver(r, tld) =>
          m.AddResolver(r, tld);
          LookupAfterAdd(before, r, tld);
        case WithNameHash(f) => m.SetNameHash(f);
      }
      i := i + 1;
    }
    assert opts[..i] == opts;
  }

  /** Appending to one chain changes no other chain. */
  lemma LookupAfterAdd(resolvers: map<string, seq<Backend>>, r: Backend, tld: string)
    ensures forall t :: Lookup(resolvers[tld := Lookup(resolvers, tld) + [r]], t)
                        == Lookup(resolvers, t) + (if t == tld then [r] else [])
  {
  }

  /** One more option extends the chain of its own TLD only, and sets the
      name hash only when it is a name hash option. */
  lemma OptionsSnoc(opts: seq<ResolverOption>, o: ResolverOption, ensNode: string -> Hash)
    ensures forall tld :: ChainFor(opts + [o], tld)
                          == ChainFor(opts, tld) + (if o.WithResolver? && o.tld == tld then [o.backend] else [])
    ensures NameHashAfter(opts + [o], ensNode) == if o.WithNameHash? then o.nameHash else NameHashAfter(opts, ensNode)
  {
    assert (opts + [o])[..|opts|] == opts;
  }
}
